=== FILE: README.md ===
# Tappy Jellyfish game engine — a Dafny model

This project models the game logic of `components/GameEngine.js`. That is a
single-screen side-scroller: a fish falls under gravity and jumps on tap. One
pair of pipes sweeps from the right edge to past the left edge. The pipes are
recycled with a random vertical offset as they leave, and the score rises each
time they pass the fish. A run ends when the fish leaves the field or touches a
pipe. The next tap restarts the game.

The engine's shared values and React state are gathered here into one
immutable record, `GameState.State`. It holds `fishY`, `fishYVelocity`,
`pipeX`, `pipeOffset`, `score` and `gameOver`, plus the state of the pipe
animation (`Sweep`). The engine reacts to three events, each a pure function
of the state:

- **frame** (`Engine.OnFrame`): the physics step, then the collision check
  on the new position, then the game-over reaction. The callback fires on
  the false-to-true edge of `gameOver` and cancels the sweep.
- **pipe position** (`PipeTrack.PipeMove`): a new `pipeX` from the sweep
  animation. First comes the recycle check: a new offset `r*400 - 200` and
  a restarted sweep. Then comes the score check.
- **tap** (`Engine.OnTap`): a jump while playing. After a game over, a tap
  restarts the game. "Without a restart" in the table below means that no
  tap lands on a finished game; jumps are allowed.

`Engine.Run` folds a sequence of events. It returns the final state and every
score passed to the game-over callback. Module by module:

- `Geometry`: points, rectangles and the inclusive point-in-rectangle test.
- `Interp`: linear interpolation and clamping, as the animation library
  provides them.
- `Physics`: the Euler step and its closed form over n frames.
- `Collision`: the pipe rectangles, the fish's reference point and the
  collision rule.
- `PipeTrack`: the recycle and score crossings, the random offset, and the
  score-dependent sweep speed.
- `Sprite`: the fish's sprite choice and tilt.
- `Engine` and `Scenarios`: event steps, runs, and run-level properties.

Units follow the code: positions are in pixels, velocities in pixels per
second, and the frame delta in **milliseconds**. Positions, velocities and
times are Dafny `real`. The random sample `Math.random()` is a parameter `r`
with `0 <= r < 1`. The window size is a `Config`.

The model follows the code, including these details a reader might not expect:

- The frame delta is in milliseconds and is divided by 1000. It is skipped
  only when it is falsy (absent or 0). A negative delta is integrated.
- The speed factor `interpolate(score, [0, 20], [1, 2])` passes no
  extrapolation mode, so it is not clamped. `PipeTrack.PipesSpeed` is 3 at
  score 40.
- The restart puts the fish at a third of the window height with velocity 0.
  At mount the fish starts at a quarter of the height with velocity 100.
- The restart keeps the pipe offset.
- The restart queues `moveTheMap` before `setScore(0)`, so the restarted
  sweep's duration is computed from the final score of the previous run.
- Both bounds of the recycle test are strict. A strictly leftward pass that
  samples exactly x = -100 is never recycled (`PipeTrack.RecycleSkipsExactThreshold`).
  Such a pass runs the sweep to its end: the pipe jumps back to the right
  edge and stays there for the rest of the run, so nothing more scores and,
  on a window wider than 78, no pipe can be hit. The model does not represent that parking (see
  `PipeTrack.StartSweep` under "## Left out").

## Model

| member | source | states |
|---|---|---|
| Geometry.PointInRectEdgesInclusive | components/GameEngine.js:127-135 | all four edges of the rectangle count as a hit; a point any distance beyond an edge misses |
| Geometry.PointInRectIsProductOfSpans | components/GameEngine.js:127-135 | the hit test is the conjunction of two closed-interval tests, on x over [x, x+w] and on y over [y, y+h] |
| Geometry.PointInRectExamples | components/GameEngine.js:127-135 | (132, 88) hits {100, 50, 104, 640} and (50, 88) does not |
| Interp.Lerp | components/GameEngine.js:60-62 | the interpolation passes through both given points and is the straight line through them beyond the ends (no clamping) |
| Interp.Clamp | components/GameEngine.js:210-215 | the clamped value stays within the bounds, equals the input inside them and equals the nearer bound outside them |
| Interp.LerpMonotone | components/GameEngine.js:60-62 | with an increasing output range the interpolation preserves order |
| Interp.ClampMonotone | components/GameEngine.js:210-215 | clamping preserves order |
| Physics.Advance | components/GameEngine.js:168-172 | the position moves by the old velocity times dt/1000 and the velocity grows by gravity times dt/1000; velocity strictly rises for dt > 0 and falls for dt < 0; nothing but the fish changes |
| Physics.FallStep | components/GameEngine.js:168-172 | one more frame after n frames is the closed form for n + 1 frames |
| Physics.IntegrateNClosedForm | components/GameEngine.js:168-172 | n frames of equal length give position y + n*v*t + g*t*t*n*(n-1)/2 and velocity v + n*g*t; velocity strictly increases for a positive delta |
| Collision.CollisionCheck | components/GameEngine.js:138-154 | the check sets gameOver exactly when the fish collides; it never clears gameOver and changes nothing else |
| Collision.CollidesIffGeometry | components/GameEngine.js:53-68 | a collision happens iff the fish's raw y is below 0 or greater than height - 100 (both strict), or the point (fishX+58, fishY+33) is in the pipes' 104-wide column and inside the top pipe's span [offset-320, offset+320] or the bottom pipe's span [height-320+offset, height+320+offset] |
| Collision.GapIsSafe | components/GameEngine.js:138-154 | a fish inside the field with its reference point strictly inside the gap between the pipes never collides |
| Collision.OutsideColumnIsSafe | components/GameEngine.js:138-154 | a fish inside the field with its reference point outside the pipes' column never collides |
| PipeTrack.NewOffset | components/GameEngine.js:111 | a recycled pipe pair gets an offset in [-200, 200) |
| PipeTrack.NewOffsetOnto | components/GameEngine.js:111 | every offset in [-200, 200) comes from some sample in [0, 1) |
| PipeTrack.PipesSpeed | components/GameEngine.js:60-62 | the speed factor is (20 + score) / 20: 1 at score 0, 1.5 at 10, 2 at 20, and 3 at 40, since it is not clamped |
| PipeTrack.SweepDuration | components/GameEngine.js:93-102 | a sweep lasts 60000 / (20 + score) ms, which is positive and at most 3000 |
| PipeTrack.SweepDurationDecreasing | components/GameEngine.js:93-102 | a higher score always gives a strictly shorter sweep |
| PipeTrack.StartSweep | components/GameEngine.js:93-102 | a started sweep shows the pipe at the window's right edge at time 0 and at x = -150 when its duration, 60000 / (20 + score) ms, has elapsed |
| PipeTrack.SweepMovesLeft | components/GameEngine.js:94-101 | during a sweep that ends left of its start, a later time always shows the pipe strictly further left |
| PipeTrack.SweepSamplesDecreasing | components/GameEngine.js:94-101 | frames sampled at increasing times within one sweep see strictly decreasing pipe positions, which is what the pass lemmas require |
| PipeTrack.PipeMove | components/GameEngine.js:105-125 | the pipe takes its new x; the recycle crossing alone redraws the offset and restarts the sweep at the pre-move score's speed; the score crossing alone adds exactly 1; the fish and gameOver are untouched; the offset stays in [-200, 200) |
| PipeTrack.ResetJumpIsInert | components/GameEngine.js:110-123 | a move back to the right never scores and never recycles |
| PipeTrack.ScoreCrossingIsHalfOpen | components/GameEngine.js:116-121 | for a fish right of x = 0, the score rule fires iff the pipe goes from right of the fish to at or left of it |
| PipeTrack.DecreasingPassScoresOnce | components/GameEngine.js:116-123 | a strictly leftward pass scores exactly once if it starts right of the fish and ends at or left of it, and otherwise never |
| PipeTrack.DecreasingPassRecyclesOnce | components/GameEngine.js:110-114 | a strictly leftward pass recycles at most once, never after reaching -100, and, when no sample is 0 or -100, exactly once iff it crosses from right of -100 to left of it |
| PipeTrack.RecycleExample | components/GameEngine.js:110-114 | the positions -95, -105, -90 recycle once, not twice |
| PipeTrack.ScoreExample | components/GameEngine.js:116-123 | positions 150, 120, 90, 60 with the fish at 90 score once, on the 120 to 90 move |
| PipeTrack.RecycleSkipsExactThreshold | components/GameEngine.js:110 | a strictly leftward pass -95, -100, -105 never recycles |
| Sprite.FishImageFor | components/GameEngine.js:193-197 | the up-flap shows iff the velocity is below -100, the down-flap iff it is above 100, and the middle frame otherwise |
| Sprite.FishRotation | components/GameEngine.js:207-218 | the tilt is velocity/1000 on [-500, 500] and clamped to [-0.5, 0.5] outside it |
| Sprite.FishRotationMonotone | components/GameEngine.js:207-218 | a larger velocity never gives a smaller tilt |
| Sprite.ImageAgreesWithTilt | components/GameEngine.js:193-218 | the up-flap shows iff the tilt is below -0.1, and the down-flap iff it is above 0.1 |
| Engine.GameOverReaction | components/GameEngine.js:157-165 | the callback fires iff gameOver goes from false to true; it passes the score and cancels the sweep; otherwise nothing changes |
| Engine.OnFrame | components/GameEngine.js:168-172 | an absent or zero delta, or a finished game, changes nothing; otherwise the fish moves with the old velocity, gravity adds to the velocity, gameOver is set iff the new position collides, the callback fires iff it is set, and the pipes and score stay unchanged |
| Engine.OnTap | components/GameEngine.js:174-190 | after a game over a tap restarts: fish at height/3, velocity 0, pipe at the right edge, score 0, sweep restarted, offset kept; while playing it only sets the velocity to -500 |
| Engine.Initial | components/GameEngine.js:47-57 | the mount state has the fish a quarter of the way down, falling at 100 px/s, and the pipe at the right edge with offset 0; the sweep runs at speed 1 (3000 ms); the score is 0 and the game is running |
| Engine.GameOverLatches | components/GameEngine.js:138-165 | without a restart (a tap on a finished game), a finished game stays finished and the callback never fires again |
| Engine.GameOverFiresOnce | components/GameEngine.js:157-165 | without a restart, and with any number of jumps, the callback fires at most once, and exactly once iff the run goes from playing to over |
| Engine.GameOverCallsBoundedByRestarts | components/GameEngine.js:157-190 | over any run the callback fires at most once more than there are restarts, and no more often than there are restarts if the run begins with the game already over; jumps do not count |
| Engine.SweepMatchesPreserved | components/GameEngine.js:157-182 | the pipe is animated exactly while the game is not over: game over cancels the sweep and only the restart starts it again |
| Engine.FrozenWhileOver | components/GameEngine.js:157-172 | once the game is over with its sweep cancelled, nothing changes and the callback does not fire until a restart: frames are skipped and the pipe stands still, so the score and offset are frozen |
| Engine.PipePathWhilePlaying | components/GameEngine.js:105-125 | in a run that never ends the game, every pipe position fed in is applied |
| Engine.ScoreFollowsCrossings | components/GameEngine.js:105-125 | without a restart, and with any number of jumps and frames, the score grows by exactly the number of score crossings along the pipe positions applied |
| Engine.SweepPassScoresOnce | components/GameEngine.js:116-123 | a strictly leftward sweep, with frames and jumps interleaved, adds exactly one point iff it carries the pipe from right of the fish to at or left of it |
| Engine.OffsetStaysInRange | components/GameEngine.js:110-114 | every run keeps the pipe offset within [-200, 200) |
| Engine.JumpIsIdempotent | components/GameEngine.js:184-190 | two taps during play equal one |
| Engine.JumpThenFrameRises | components/GameEngine.js:168-190 | a jump followed by a frame of dt ms lifts the fish by dt/2 pixels, whatever its earlier velocity |
| Engine.MountIsCollisionFree | components/GameEngine.js:138-154 | on a window wider than 78 and at least 134 tall, the mount state is in the field and clear of the pipes, so the collision reaction's first run does not end the game |
| Engine.RestartIsCollisionFree | components/GameEngine.js:174-182 | on a window wider than 78 and at least 150 tall, the restarted fish is in the field and clear of the pipes |
| Engine.RestartDiffersFromMount | components/GameEngine.js:174-182 | every restart equals the mount state except that the fish starts at height/3 with velocity 0, the pipe offset is kept, and the sweep's speed comes from the final score; the pipe is animated again |
| Scenarios.FramesKeepScore | components/GameEngine.js:157-172 | frames alone never change the score, and every callback they cause reports it |
| Scenarios.FreeFall | components/GameEngine.js:138-172 | while a run of frames has not ended, the fish has moved exactly as n physics steps move it and is still inside the field |
| Scenarios.ParkedPipeEndsAtFloor | components/GameEngine.js:138-172 | with the pipe at the right edge of a window wider than 78, a run of positive-length frames from a falling fish keeps the pipe there, keeps the fish falling, and ends only by the fish passing height - 100 |
| Scenarios.UntouchedGameEnds | components/GameEngine.js:138-172 | from the mount state on a window at most 2000 tall, 100 frames at 60 fps without a tap end the run, and the callback fires exactly once, with score 0; on a window wider than 78 the fish has passed height - 100 when the run ends |

## Left out

- Drawing, image and font loading, and the `imagesLoaded` bookkeeping (components/GameEngine.js:38-45, 73-90, 224-281): these are rendering and asset I/O.
- Animation timing: the tweening engine, the thread hops and reaction scheduling. The pipe position arrives as an input event (`PipeMoved`). A sweep is a value: a linear path with its end points and duration, or stopped. While the sweep is stopped, pipe events are ignored, because a cancelled animation no longer moves the pipe.
- The gesture wiring: a tap is a plain event.
- `Math.random()`: the sample is an event parameter in [0, 1).
- Floating point: positions, velocities and times are exact reals. NaN, which JavaScript treats as a falsy delta, has no counterpart.
- The pipe reaction's first call, whose previous value is `null`. The model uses the current `pipeX` as the previous value. For a positive window width, that first call (x = width) can neither score nor recycle in either case.
- The collision reaction runs only when `fishY` changes. A frame at velocity exactly 0 leaves `fishY` unchanged, so in the code no collision check follows it. `Engine.OnFrame` checks after every frame that is not skipped, so the model can end the game one frame earlier than the code at such a frame. That happens, for example, on the first frame after a restart.
- The collision reaction's first run at mount. It cannot end the game on a window wider than 78 and at least 134 tall (`Engine.MountIsCollisionFree`).
- The reactions that the restart's own writes provoke. The write of `pipeX` cannot score or recycle when it does not move the pipe left (`PipeTrack.ResetJumpIsInert`). The write of `fishY` cannot end the new run on a window wider than 78 and at least 150 tall (`Engine.RestartIsCollisionFree`).
- `score` is read from the React closure. A stale closure that lags a re-render is not modelled; the score is the state's current value.
- PipeTrack.StartSweep: the sweep's closing step, an instant jump back to x = width once x = -150 is reached (components/GameEngine.js:100), is not modelled. In the code the sweep then stops and does not repeat; only a recycle or a restart starts a new one. So a pass the recycle rule misses parks the pipe at the right edge for the rest of the run. The model keeps the sweep running and accepts any later pipe position, so it admits paths the code cannot produce after such a pass.
- Scenarios.UntouchedGameEnds: the pipes are parked during the 100 frames (no `PipeMoved` events), and the window height is bounded by 2000.
- App.js (audio, screen switching) and babel.config.js (build configuration): UI plumbing and build settings around the engine.

=== FILE: collision.dfy ===
/** The pipe geometry derived from the pipe position and offset, and the rule
    that ends a run: the fish leaves the field or its reference point touches
    a pipe. */
module Collision {
  import opened GameState
  import opened Geometry

  const PIPE_WIDTH: real := 104.0
  const PIPE_HEIGHT: real := 640.0
  /** The pipes' vertical shift, half of PIPE_HEIGHT. */
  const PIPE_SHIFT: real := 320.0
  /** The fish may not go below this distance above the window's bottom edge. */
  const FLOOR_MARGIN: real := 100.0
  /** The fish's reference point, relative to the sprite's top-left corner. */
  const CENTER_DX: real := 58.0
  const CENTER_DY: real := 33.0

  function TopPipeY(offset: real): real {
    offset - PIPE_SHIFT
  }

  function BottomPipeY(cfg: Config, offset: real): real {
    cfg.height - PIPE_SHIFT + offset
  }

  /** The two obstacle rectangles, bottom pipe first. */
  function Obstacles(cfg: Config, pipeX: real, offset: real): seq<Rect> {
    [Rect(pipeX, BottomPipeY(cfg, offset), PIPE_WIDTH, PIPE_HEIGHT),
     Rect(pipeX, TopPipeY(offset), PIPE_WIDTH, PIPE_HEIGHT)]
  }

  function FishCenter(cfg: Config, fishY: real): Point {
    Point(FishX(cfg) + CENTER_DX, fishY + CENTER_DY)
  }

  /** The boundary rule, on the sprite's raw y (not the reference point); both bounds strict. */
  predicate OutOfField(cfg: Config, fishY: real) {
    fishY > cfg.height - FLOOR_MARGIN || fishY < 0.0
  }

  predicate HitsObstacle(cfg: Config, s: State) {
    var obs := Obstacles(cfg, s.pipeX, s.pipeOffset);
    exists i | 0 <= i < |obs| :: PointInRect(FishCenter(cfg, s.fishY), obs[i])
  }

  predicate Collides(cfg: Config, s: State) {
    OutOfField(cfg, s.fishY) || HitsObstacle(cfg, s)
  }

  /** The collision reaction: it can only latch `gameOver`, never clear it,
      and it touches nothing else. */
  function CollisionCheck(cfg: Config, s: State): (s': State)
    ensures s'.gameOver <==> s.gameOver || Collides(cfg, s)
    ensures s.gameOver ==> s'.gameOver
    ensures s' == s.(gameOver := s'.gameOver)
  {
    var s1 := if OutOfField(cfg, s.fishY) then s.(gameOver := true) else s;
    if HitsObstacle(cfg, s) then s1.(gameOver := true) else s1
  }

  /** The x-range both pipes occupy. */
  predicate InPipeColumn(cfg: Config, s: State) {
    InSpan(FishX(cfg) + CENTER_DX, s.pipeX, PIPE_WIDTH)
  }

  /** The collision rule restated as geometry: the run ends iff the fish is
      out of the field, or its reference point is in the pipes' column and
      within the vertical extent of the top pipe (up to offset + 320) or of
      the bottom pipe (from height - 320 + offset). */
  lemma CollidesIffGeometry(cfg: Config, s: State)
    ensures Collides(cfg, s) <==>
      OutOfField(cfg, s.fishY)
      || (InPipeColumn(cfg, s)
          && (InSpan(s.fishY + CENTER_DY, TopPipeY(s.pipeOffset), PIPE_HEIGHT)
              || InSpan(s.fishY + CENTER_DY, BottomPipeY(cfg, s.pipeOffset), PIPE_HEIGHT)))
  {
    var obs := Obstacles(cfg, s.pipeX, s.pipeOffset);
    var c := FishCenter(cfg, s.fishY);
    PointInRectIsProductOfSpans(c, obs[0]);
    PointInRectIsProductOfSpans(c, obs[1]);
    if InPipeColumn(cfg, s) && InSpan(c.y, TopPipeY(s.pipeOffset), PIPE_HEIGHT) {
      assert PointInRect(c, obs[1]);
    }
    if InPipeColumn(cfg, s) && InSpan(c.y, BottomPipeY(cfg, s.pipeOffset), PIPE_HEIGHT) {
      assert PointInRect(c, obs[0]);
    }
  }

  /** A fish inside the field whose reference point is strictly inside the
      gap between the pipes survives, wherever the pipes are. */
  lemma GapIsSafe(cfg: Config, s: State)
    requires !OutOfField(cfg, s.fishY)
    requires TopPipeY(s.pipeOffset) + PIPE_HEIGHT < s.fishY + CENTER_DY < BottomPipeY(cfg, s.pipeOffset)
    ensures !Collides(cfg, s)
  {
    CollidesIffGeometry(cfg, s);
  }

  /** A fish inside the field whose reference point is outside the pipes'
      column survives, whatever the pipes' offset. */
  lemma OutsideColumnIsSafe(cfg: Config, s: State)
    requires !OutOfField(cfg, s.fishY)
    requires !InPipeColumn(cfg, s)
    ensures !Collides(cfg, s)
  {
    CollidesIffGeometry(cfg, s);
  }
}

=== FILE: engine.dfy ===
/** The game loop: the three events the engine reacts to (a frame tick, a new
    pipe position from the sweep animation, a tap), each as a pure step on the
    state, in a fixed order, and runs of events. */
module Engine {
  import opened GameState
  import Physics
  import Collision
  import PipeTrack

  datatype Event =
    | Frame(dt: Option<real>)           // time since the previous frame, ms
    | PipeMoved(x: real, sample: real)  // the sweep's next pipe x, and a random sample
    | Tap

  /** A random sample lies in [0, 1). */
  predicate ValidEvent(e: Event) {
    e.PipeMoved? ==> 0.0 <= e.sample < 1.0
  }

  /** The state after an event, and the score passed to the game-over
      callback if the event fired it. */
  datatype Outcome = Outcome(state: State, gameOverCall: Option<nat>)

  /** The pipe is animated exactly while the game is not over: the game-over
      reaction cancels the sweep, and only the restart starts it again. */
  predicate SweepMatches(s: State) {
    s.sweep.Stopped? <==> s.gameOver
  }

  /** The state when the engine is mounted: the fish a quarter of the way down
      and falling at 100 px/s, the pipe at the right edge with offset 0 and
      sweeping at speed 1, no score, and the game running. */
  function Initial(cfg: Config): (s: State)
    ensures s.fishY == cfg.height / 4.0 && s.fishYVelocity == 100.0
    ensures s.pipeX == cfg.width && s.pipeOffset == 0.0 && s.score == 0 && !s.gameOver
    ensures s.sweep.Sweeping? && s.sweep.durationMs == PipeTrack.BASE_SWEEP_MS
    ensures SweepMatches(s)
  {
    State(cfg.height / 4.0, 100.0, cfg.width, 0.0, 0, false, PipeTrack.StartSweep(cfg, 0))
  }

  /** The game-over reaction, given the flag's previous value: on a false to
      true edge it cancels the sweep and reports the score; otherwise nothing. */
  function GameOverReaction(prev: bool, s: State): (o: Outcome)
    ensures o.gameOverCall.Some? <==> s.gameOver && !prev
    ensures o.gameOverCall.Some? ==> o.gameOverCall.value == s.score && o.state == s.(sweep := Stopped)
    ensures o.gameOverCall.None? ==> o.state == s
  {
    if s.gameOver && !prev then Outcome(s.(sweep := Stopped), Some(s.score)) else Outcome(s, None)
  }

  /** A frame: skipped when the delta is falsy or the game is over; otherwise
      the physics step, then the collision check on the new position, then
      the game-over reaction. */
  function OnFrame(cfg: Config, s: State, dt: Option<real>): (o: Outcome)
    ensures !Physics.DtPresent(dt) || s.gameOver ==> o == Outcome(s, None)
    ensures Physics.DtPresent(dt) && !s.gameOver ==>
      && o.state.fishY == s.fishY + s.fishYVelocity * dt.value / Physics.MS_PER_SECOND
      && o.state.fishYVelocity == s.fishYVelocity + Physics.GRAVITY * dt.value / Physics.MS_PER_SECOND
      && (dt.value > 0.0 ==> o.state.fishYVelocity > s.fishYVelocity)
      && (o.state.gameOver <==> Collision.Collides(cfg, o.state))
      && (o.gameOverCall.Some? <==> o.state.gameOver)
      && (o.gameOverCall.Some? ==> o.gameOverCall.value == s.score && o.state.sweep == Stopped)
      && (o.gameOverCall.None? ==> o.state.sweep == s.sweep)
    ensures o.state.pipeX == s.pipeX && o.state.pipeOffset == s.pipeOffset && o.state.score == s.score
    ensures s.gameOver ==> o.state.gameOver
  {
    if !Physics.DtPresent(dt) || s.gameOver then Outcome(s, None)
    else
      var moved := Physics.Advance(s, dt.value);
      var checked := Collision.CollisionCheck(cfg, moved);
      GameOverReaction(moved.gameOver, checked)
  }

  /** The restart a tap performs once the game is over. The sweep is started
      before the score is reset, so its speed comes from the final score; the
      pipe offset is kept. */
  function Restart(cfg: Config, s: State): State {
    s.(fishY := cfg.height / 3.0, fishYVelocity := 0.0, gameOver := false, pipeX := cfg.width,
       sweep := PipeTrack.StartSweep(cfg, s.score), score := 0)
  }

  /** A tap: restart if the game is over, otherwise a jump that only sets
      the velocity. */
  function OnTap(cfg: Config, s: State): (s': State)
    ensures s.gameOver ==>
      && s'.fishY == cfg.height / 3.0 && s'.fishYVelocity == 0.0
      && !s'.gameOver && s'.pipeX == cfg.width && s'.score == 0
      && s'.pipeOffset == s.pipeOffset && s'.sweep == PipeTrack.StartSweep(cfg, s.score)
    ensures !s.gameOver ==> s' == s.(fishYVelocity := Physics.JUMP_FORCE)
  {
    if s.gameOver then Restart(cfg, s) else s.(fishYVelocity := Physics.JUMP_FORCE)
  }

  /** One event. A pipe position only arrives while the sweep runs: once the
      game-over reaction has cancelled it, the pipe stands still. */
  function Step(cfg: Config, s: State, e: Event): Outcome
    requires ValidEvent(e)
  {
    match e
    case Frame(dt) => OnFrame(cfg, s, dt)
    case PipeMoved(x, r) =>
      if s.sweep.Stopped? then Outcome(s, None) else Outcome(PipeTrack.PipeMove(cfg, s, x, r), None)
    case Tap => Outcome(OnTap(cfg, s), None)
  }

  /** The final state of a run of events and, in order, every score the
      game-over callback was called with. */
  datatype Trace = Trace(final: State, calls: seq<nat>)

  predicate AllValid(evs: seq<Event>) {
    forall i | 0 <= i < |evs| :: ValidEvent(evs[i])
  }

  function Run(cfg: Config, s: State, evs: seq<Event>): Trace
    requires AllValid(evs)
    decreases |evs|
  {
    if |evs| == 0 then Trace(s, [])
    else
      var o := Step(cfg, s, evs[0]);
      var t := Run(cfg, o.state, evs[1..]);
      Trace(t.final, (if o.gameOverCall.Some? then [o.gameOverCall.value] else []) + t.calls)
  }

  predicate NoTap(evs: seq<Event>) {
    forall i | 0 <= i < |evs| :: !evs[i].Tap?
  }

  /** No tap of the run lands on a finished game, so no tap restarts it;
      taps during play (jumps) are allowed. */
  predicate NoRestart(cfg: Config, s: State, evs: seq<Event>)
    requires AllValid(evs)
    decreases |evs|
  {
    |evs| == 0
    || (!(evs[0].Tap? && s.gameOver) && NoRestart(cfg, Step(cfg, s, evs[0]).state, evs[1..]))
  }

  /** How many taps of the run land on a finished game and restart it. */
  function RestartCount(cfg: Config, s: State, evs: seq<Event>): nat
    requires AllValid(evs)
    decreases |evs|
  {
    if |evs| == 0 then 0
    else (if evs[0].Tap? && s.gameOver then 1 else 0) + RestartCount(cfg, Step(cfg, s, evs[0]).state, evs[1..])
  }

  /** A run without any tap restarts nothing. */
  lemma {:induction false} NoTapNoRestart(cfg: Config, s: State, evs: seq<Event>)
    requires AllValid(evs) && NoTap(evs)
    ensures NoRestart(cfg, s, evs)
    decreases |evs|
  {
    if |evs| > 0 {
      NoTapNoRestart(cfg, Step(cfg, s, evs[0]).state, evs[1..]);
    }
  }

  /** Without a restart, a finished game stays finished and the callback is
      never called again, whatever collisions follow. */
  lemma {:induction false} GameOverLatches(cfg: Config, s: State, evs: seq<Event>)
    requires AllValid(evs) && NoRestart(cfg, s, evs)
    requires s.gameOver
    ensures Run(cfg, s, evs).final.gameOver
    ensures Run(cfg, s, evs).calls == []
    decreases |evs|
  {
    if |evs| > 0 {
      var o := Step(cfg, s, evs[0]);
      assert o.state.gameOver && o.gameOverCall.None?;
      GameOverLatches(cfg, o.state, evs[1..]);
    }
  }

  /** Without a restart (jumps allowed) the callback is called at most once,
      and exactly once iff the run goes from playing to over. */
  lemma {:induction false} GameOverFiresOnce(cfg: Config, s: State, evs: seq<Event>)
    requires AllValid(evs) && NoRestart(cfg, s, evs)
    ensures |Run(cfg, s, evs).calls| <= 1
    ensures |Run(cfg, s, evs).calls| == 1 <==> !s.gameOver && Run(cfg, s, evs).final.gameOver
    decreases |evs|
  {
    if |evs| == 0 {
    } else if s.gameOver {
      GameOverLatches(cfg, s, evs);
    } else {
      var o := Step(cfg, s, evs[0]);
      if o.gameOverCall.Some? {
        assert o.state.gameOver;
        GameOverLatches(cfg, o.state, evs[1..]);
      } else {
        assert !o.state.gameOver;
        GameOverFiresOnce(cfg, o.state, evs[1..]);
      }
    }
  }

  /** Across any run, each further call of the callback needs a restart
      before it; jumps do not count. */
  lemma {:induction false} GameOverCallsBoundedByRestarts(cfg: Config, s: State, evs: seq<Event>)
    requires AllValid(evs)
    ensures |Run(cfg, s, evs).calls| <= 1 + RestartCount(cfg, s, evs)
    ensures s.gameOver ==> |Run(cfg, s, evs).calls| <= RestartCount(cfg, s, evs)
    decreases |evs|
  {
    if |evs| > 0 {
      var o := Step(cfg, s, evs[0]);
      GameOverCallsBoundedByRestarts(cfg, o.state, evs[1..]);
      if o.gameOverCall.Some? {
        assert o.state.gameOver;
      }
      if s.gameOver && !evs[0].Tap? {
        assert o.state.gameOver;
      }
    }
  }

  /** Every step keeps the sweep running exactly while the game is not over. */
  lemma {:induction false} SweepMatchesPreserved(cfg: Config, s: State, evs: seq<Event>)
    requires AllValid(evs) && SweepMatches(s)
    ensures SweepMatches(Run(cfg, s, evs).final)
    decreases |evs|
  {
    if |evs| > 0 {
      var o := Step(cfg, s, evs[0]);
      assert SweepMatches(o.state);
      SweepMatchesPreserved(cfg, o.state, evs[1..]);
    }
  }

  /** Once the game is over (and its sweep cancelled), nothing changes until a
      restart: frames are skipped, the pipe stands still, the score, the pipe
      offset and the fish are frozen, and the callback does not fire. */
  lemma {:induction false} FrozenWhileOver(cfg: Config, s: State, evs: seq<Event>)
    requires AllValid(evs) && NoRestart(cfg, s, evs)
    requires s.gameOver && SweepMatches(s)
    ensures Run(cfg, s, evs) == Trace(s, [])
    decreases |evs|
  {
    if |evs| > 0 {
      assert Step(cfg, s, evs[0]) == Outcome(s, None);
      FrozenWhileOver(cfg, s, evs[1..]);
    }
  }

  /** The pipe positions a run feeds in, in order. */
  function PipePositions(evs: seq<Event>): seq<real>
    decreases |evs|
  {
    if |evs| == 0 then []
    else (if evs[0].PipeMoved? then [evs[0].x] else []) + PipePositions(evs[1..])
  }

  /** The pipe positions a run actually applies: those that arrive while the
      sweep runs. */
  function PipePath(cfg: Config, s: State, evs: seq<Event>): seq<real>
    requires AllValid(evs)
    decreases |evs|
  {
    if |evs| == 0 then []
    else
      (if evs[0].PipeMoved? && !s.sweep.Stopped? then [evs[0].x] else [])
      + PipePath(cfg, Step(cfg, s, evs[0]).state, evs[1..])
  }

  /** In a run that never ends the game, every pipe position fed in is applied. */
  lemma {:induction false} PipePathWhilePlaying(cfg: Config, s: State, evs: seq<Event>)
    requires AllValid(evs) && NoRestart(cfg, s, evs) && SweepMatches(s)
    requires !Run(cfg, s, evs).final.gameOver
    ensures PipePath(cfg, s, evs) == PipePositions(evs)
    decreases |evs|
  {
    if |evs| > 0 {
      var o := Step(cfg, s, evs[0]);
      if s.gameOver {
        GameOverLatches(cfg, s, evs);
      } else if o.state.gameOver {
        GameOverLatches(cfg, o.state, evs[1..]);
      } else {
        assert SweepMatches(o.state);
        PipePathWhilePlaying(cfg, o.state, evs[1..]);
      }
    }
  }

  /** Without a restart (jumps allowed), the score grows by exactly the number
      of score crossings along the pipe positions applied, starting from the
      current one. */
  lemma {:induction false} ScoreFollowsCrossings(cfg: Config, s: State, evs: seq<Event>)
    requires AllValid(evs) && NoRestart(cfg, s, evs)
    ensures Run(cfg, s, evs).final.score ==
      s.score + PipeTrack.ScoreCount([s.pipeX] + PipePath(cfg, s, evs), FishX(cfg))
    decreases |evs|
  {
    if |evs| > 0 {
      var o := Step(cfg, s, evs[0]);
      ScoreFollowsCrossings(cfg, o.state, evs[1..]);
      var rest := PipePath(cfg, o.state, evs[1..]);
      if evs[0].PipeMoved? && !s.sweep.Stopped? {
        assert PipePath(cfg, s, evs) == [evs[0].x] + rest;
        assert ([s.pipeX] + ([evs[0].x] + rest))[1..] == [o.state.pipeX] + rest;
      } else {
        assert PipePath(cfg, s, evs) == rest;
        assert o.state.pipeX == s.pipeX && o.state.score == s.score;
      }
    }
  }

  /** One strictly leftward sweep of the pipe, interleaved with any frames and
      jumps, raises the score by exactly one iff it carries the pipe from
      right of the fish to at or left of it. */
  lemma SweepPassScoresOnce(cfg: Config, s: State, evs: seq<Event>)
    requires AllValid(evs) && NoRestart(cfg, s, evs)
    requires cfg.width > 0.0
    requires PipeTrack.Decreasing([s.pipeX] + PipePath(cfg, s, evs))
    ensures var ps := [s.pipeX] + PipePath(cfg, s, evs);
      Run(cfg, s, evs).final.score ==
        s.score + (if s.pipeX > FishX(cfg) && ps[|ps| - 1] <= FishX(cfg) then 1 else 0)
  {
    ScoreFollowsCrossings(cfg, s, evs);
    PipeTrack.DecreasingPassScoresOnce([s.pipeX] + PipePath(cfg, s, evs), FishX(cfg));
  }

  /** Every step keeps the pipe offset in [-200, 200), the range the recycle
      rule draws from; the initial offset 0 is in it. */
  lemma {:induction false} OffsetStaysInRange(cfg: Config, s: State, evs: seq<Event>)
    requires AllValid(evs)
    requires -200.0 <= s.pipeOffset < 200.0
    ensures -200.0 <= Run(cfg, s, evs).final.pipeOffset < 200.0
    decreases |evs|
  {
    if |evs| > 0 {
      var o := Step(cfg, s, evs[0]);
      assert -200.0 <= o.state.pipeOffset < 200.0;
      OffsetStaysInRange(cfg, o.state, evs[1..]);
    }
  }

  /** Tapping twice during play is the same as tapping once. */
  lemma JumpIsIdempotent(cfg: Config, s: State)
    requires !s.gameOver
    ensures OnTap(cfg, OnTap(cfg, s)) == OnTap(cfg, s)
  {
  }

  /** A jump followed by a frame of dtMs milliseconds lifts the fish by
      dtMs / 2 pixels, from any velocity it had before. */
  lemma JumpThenFrameRises(cfg: Config, s: State, dtMs: real)
    requires !s.gameOver && dtMs > 0.0
    ensures OnFrame(cfg, OnTap(cfg, s), Some(dtMs)).state.fishY == s.fishY - dtMs / 2.0
  {
  }

  /** The mount state leaves the fish clear of the field's edges and of the
      pipes (the pipe starts at the right edge), so the collision reaction's
      first run cannot end the game. */
  lemma MountIsCollisionFree(cfg: Config)
    requires cfg.width > 78.0 && cfg.height >= 134.0
    ensures !Collision.Collides(cfg, Initial(cfg))
  {
    var s := Initial(cfg);
    assert !Collision.InPipeColumn(cfg, s);
    Collision.OutsideColumnIsSafe(cfg, s);
  }

  /** The restart leaves the fish clear of the field's edges and of the pipes
      (the pipe is back at the right edge), so the collision reaction that the
      restart's write of fishY provokes cannot end the new run. */
  lemma RestartIsCollisionFree(cfg: Config, s: State)
    requires s.gameOver
    requires cfg.width > 78.0 && cfg.height >= 150.0
    ensures !Collision.Collides(cfg, OnTap(cfg, s))
  {
    var s' := OnTap(cfg, s);
    assert !Collision.InPipeColumn(cfg, s');
    Collision.OutsideColumnIsSafe(cfg, s');
  }

  /** Any restart equals the mount state except that the fish starts at a
      third of the height with velocity 0 (instead of a quarter and 100), the
      pipe offset is kept, and the sweep's speed comes from the final score. */
  lemma RestartDiffersFromMount(cfg: Config, s: State)
    requires s.gameOver
    ensures OnTap(cfg, s) == Initial(cfg).(fishY := cfg.height / 3.0, fishYVelocity := 0.0,
                                           pipeOffset := s.pipeOffset,
                                           sweep := PipeTrack.StartSweep(cfg, s.score))
    ensures SweepMatches(OnTap(cfg, s))
  {
  }
}

=== FILE: game_state.dfy ===
/** The state of one game screen, lifted out of the engine's shared values and
    React state into a single immutable record. Positions are in screen pixels
    (y grows downward), velocities in pixels per second, times in milliseconds. */
module GameState {

  /** An optional value; `None` stands for JavaScript's `undefined`/`null`. */
  datatype Option<T> = None | Some(value: T)

  /** The window dimensions; the model holds them fixed for a run. */
  datatype Config = Config(width: real, height: real)

  /** The pipe animation: either stopped (cancelled), or a linear sweep of the
      pipe's x position from `fromX` to `toX` lasting `durationMs`. */
  datatype Sweep = Stopped | Sweeping(fromX: real, toX: real, durationMs: real)

  /** Everything the game logic reads and writes. */
  datatype State = State(
    fishY: real,          // top edge of the fish sprite
    fishYVelocity: real,  // downward velocity, pixels per second
    pipeX: real,          // left edge of both pipes
    pipeOffset: real,     // vertical shift of the pipe pair
    score: nat,
    gameOver: bool,
    sweep: Sweep)

  /** The fish's fixed horizontal position: a quarter of the window width. */
  function FishX(cfg: Config): real {
    cfg.width / 4.0
  }
}

=== FILE: geometry.dfy ===
/** Axis-aligned rectangles and the point-in-rectangle test used for collisions. */
module Geometry {

  datatype Point = Point(x: real, y: real)

  /** A rectangle with top-left corner (x, y), width w and height h. */
  datatype Rect = Rect(x: real, y: real, w: real, h: real)

  /** The closed interval [lo, lo + len]. */
  predicate InSpan(v: real, lo: real, len: real) {
    lo <= v <= lo + len
  }

  /** The collision test: the point lies in the rectangle, edges included. */
  predicate PointInRect(p: Point, r: Rect) {
    p.x >= r.x && p.x <= r.x + r.w && p.y >= r.y && p.y <= r.y + r.h
  }

  /** All four edges count: every corner of a rectangle of non-negative size
      collides, and a point just beyond any edge does not. */
  lemma PointInRectEdgesInclusive(r: Rect, eps: real)
    requires r.w >= 0.0 && r.h >= 0.0 && eps > 0.0
    ensures PointInRect(Point(r.x, r.y), r)
    ensures PointInRect(Point(r.x + r.w, r.y), r)
    ensures PointInRect(Point(r.x, r.y + r.h), r)
    ensures PointInRect(Point(r.x + r.w, r.y + r.h), r)
    ensures !PointInRect(Point(r.x - eps, r.y), r)
    ensures !PointInRect(Point(r.x + r.w + eps, r.y), r)
    ensures !PointInRect(Point(r.x, r.y - eps), r)
    ensures !PointInRect(Point(r.x, r.y + r.h + eps), r)
  {
  }

  /** The test is the product of two independent closed-interval tests. */
  lemma PointInRectIsProductOfSpans(p: Point, r: Rect)
    ensures PointInRect(p, r) <==> InSpan(p.x, r.x, r.w) && InSpan(p.y, r.y, r.h)
  {
  }

  /** A worked pair: (132, 88) lies in {x 100, y 50, w 104, h 640}; (50, 88) does not. */
  lemma PointInRectExamples()
    ensures PointInRect(Point(132.0, 88.0), Rect(100.0, 50.0, 104.0, 640.0))
    ensures !PointInRect(Point(50.0, 88.0), Rect(100.0, 50.0, 104.0, 640.0))
  {
  }
}

=== FILE: interp.dfy ===
/** Linear interpolation between two points, and clamping: the two numeric
    helpers the engine takes from its animation library. */
module Interp {

  /** Maps x linearly so that x0 goes to y0 and x1 to y1, extending the line
      beyond both ends (the library's default extrapolation). */
  function Lerp(x: real, x0: real, x1: real, y0: real, y1: real): (y: real)
    requires x0 < x1
    ensures x == x0 ==> y == y0
    ensures x == x1 ==> y == y1
    ensures (y - y0) * (x1 - x0) == (x - x0) * (y1 - y0)
  {
    y0 + (x - x0) * (y1 - y0) / (x1 - x0)
  }

  /** v limited to [lo, hi] (the library's CLAMP extrapolation). */
  function Clamp(v: real, lo: real, hi: real): (c: real)
    requires lo <= hi
    ensures lo <= c <= hi
    ensures lo <= v <= hi ==> c == v
    ensures v < lo ==> c == lo
    ensures v > hi ==> c == hi
  {
    if v < lo then lo else if v > hi then hi else v
  }

  /** An increasing output range gives a non-decreasing map. */
  lemma LerpMonotone(a: real, b: real, x0: real, x1: real, y0: real, y1: real)
    requires x0 < x1 && y0 <= y1 && a <= b
    ensures Lerp(a, x0, x1, y0, y1) <= Lerp(b, x0, x1, y0, y1)
  {
    var d := x1 - x0;
    assert (b - x0) * (y1 - y0) - (a - x0) * (y1 - y0) == (b - a) * (y1 - y0);
    assert (b - a) * (y1 - y0) >= 0.0;
    assert (a - x0) * (y1 - y0) / d <= (b - x0) * (y1 - y0) / d;
  }

  /** Clamping preserves order. */
  lemma ClampMonotone(a: real, b: real, lo: real, hi: real)
    requires lo <= hi && a <= b
    ensures Clamp(a, lo, hi) <= Clamp(b, lo, hi)
  {
  }
}

=== FILE: physics.dfy ===
/** The per-frame physics of the fish: explicit Euler integration of gravity,
    and the jump impulse. */
module Physics {
  import opened GameState

  /** Downward acceleration, pixels per second squared. */
  const GRAVITY: real := 1000.0
  /** Velocity a tap sets (negative is upward), pixels per second. */
  const JUMP_FORCE: real := -500.0
  const MS_PER_SECOND: real := 1000.0

  /** JavaScript truthiness of the frame's time delta: an absent (`undefined`)
      or zero delta is falsy and skips the frame; a negative delta is not. */
  predicate DtPresent(dt: Option<real>) {
    dt.Some? && dt.value != 0.0
  }

  /** The fish's vertical position and velocity. */
  datatype Body = Body(y: real, v: real)

  function BodyOf(s: State): Body {
    Body(s.fishY, s.fishYVelocity)
  }

  /** One explicit Euler step over `dtMs` milliseconds: the position moves
      with the velocity held before the step. */
  function Integrate(b: Body, dtMs: real): Body {
    Body(b.y + (b.v * dtMs) / MS_PER_SECOND, b.v + (GRAVITY * dtMs) / MS_PER_SECOND)
  }

  /** The physics step on the game state: only the fish changes. */
  function Advance(s: State, dtMs: real): (s': State)
    ensures s'.fishY == s.fishY + s.fishYVelocity * dtMs / MS_PER_SECOND
    ensures s'.fishYVelocity == s.fishYVelocity + GRAVITY * dtMs / MS_PER_SECOND
    ensures dtMs > 0.0 ==> s'.fishYVelocity > s.fishYVelocity
    ensures dtMs < 0.0 ==> s'.fishYVelocity < s.fishYVelocity
    ensures s' == s.(fishY := s'.fishY, fishYVelocity := s'.fishYVelocity)
  {
    var b := Integrate(BodyOf(s), dtMs);
    s.(fishY := b.y, fishYVelocity := b.v)
  }

  /** n steps of `dtMs` each. */
  function IntegrateN(b: Body, dtMs: real, n: nat): Body
    decreases n
  {
    if n == 0 then b else IntegrateN(Integrate(b, dtMs), dtMs, n - 1)
  }

  /** The closed form of n steps from position y and velocity v, where
      t = dtMs / 1000: the discrete parabola y + n*v*t + g*t*t*n*(n-1)/2. */
  function FallY(y: real, v: real, dtMs: real, n: nat): real {
    var t := dtMs / MS_PER_SECOND;
    var k := n as real;
    y + k * v * t + GRAVITY * t * t * (k * (k - 1.0) / 2.0)
  }

  /** The closed form of the velocity after n steps: v + n*g*t. */
  function FallVelocity(v: real, dtMs: real, n: nat): real {
    v + (n as real) * GRAVITY * dtMs / MS_PER_SECOND
  }

  /** The closed form after one more step is one step after the closed form. */
  lemma FallStep(y: real, v: real, dtMs: real, n: nat)
    ensures FallY(y + v * dtMs / MS_PER_SECOND, v + GRAVITY * dtMs / MS_PER_SECOND, dtMs, n)
         == FallY(y, v, dtMs, n + 1)
    ensures FallVelocity(v + GRAVITY * dtMs / MS_PER_SECOND, dtMs, n) == FallVelocity(v, dtMs, n + 1)
  {
    var t := dtMs / MS_PER_SECOND;
    var k := n as real;
    var g := GRAVITY;
    assert v * dtMs / MS_PER_SECOND == v * t;
    assert g * dtMs / MS_PER_SECOND == g * t;
    calc {
      FallY(y + v * t, v + g * t, dtMs, n);
      y + v * t + k * (v + g * t) * t + g * t * t * (k * (k - 1.0) / 2.0);
      y + (k + 1.0) * v * t + g * t * t * (k + k * (k - 1.0) / 2.0);
      { assert k + k * (k - 1.0) / 2.0 == (k + 1.0) * k / 2.0; }
      y + (k + 1.0) * v * t + g * t * t * ((k + 1.0) * k / 2.0);
      FallY(y, v, dtMs, n + 1);
    }
  }

  /** n frames of constant length land on the closed form; in particular,
      under constant gravity the velocity strictly increases with every
      frame of positive length. */
  lemma {:induction false} IntegrateNClosedForm(b: Body, dtMs: real, n: nat)
    ensures IntegrateN(b, dtMs, n) == Body(FallY(b.y, b.v, dtMs, n), FallVelocity(b.v, dtMs, n))
    ensures dtMs > 0.0 && n > 0 ==> IntegrateN(b, dtMs, n).v > b.v
    decreases n
  {
    if n > 0 {
      IntegrateNClosedForm(Integrate(b, dtMs), dtMs, n - 1);
      FallStep(b.y, b.v, dtMs, n - 1);
      if dtMs > 0.0 {
        assert (n as real) * GRAVITY * dtMs > 0.0;
      }
    }
  }
}

=== FILE: pipe_track.dfy ===
/** The pipe track: one pair of pipes swept from the right edge to past the
    left edge, recycled with a fresh random offset as it leaves, with a speed
    that grows with the score; and the score counter, which observes the same
    pipe position. */
module PipeTrack {
  import opened GameState
  import Interp

  /** Recycling happens when the pipe passes below this x. */
  const RECYCLE_X: real := -100.0
  /** Where a sweep ends. */
  const SWEEP_END_X: real := -150.0
  /** Duration of one sweep at speed 1, milliseconds. */
  const BASE_SWEEP_MS: real := 3000.0
  /** The score at which the speed factor has doubled. */
  const SPEED_SCORE_BREAKPOINT: real := 20.0

  /** JavaScript truthiness of a number (NaN is not modelled): only 0 is falsy. */
  predicate Truthy(x: real) {
    x != 0.0
  }

  /** The recycle trigger on two successive pipe positions. */
  predicate RecycleCrossing(prev: real, cur: real) {
    Truthy(prev) && cur < RECYCLE_X && prev > RECYCLE_X
  }

  /** The scoring trigger on two successive pipe positions and the fish's x. */
  predicate ScoreCrossing(prev: real, cur: real, middle: real) {
    cur != prev && Truthy(prev) && cur <= middle && prev > middle
  }

  /** The pipe pair's new vertical offset from a random sample r in [0, 1). */
  function NewOffset(r: real): (o: real)
    requires 0.0 <= r < 1.0
    ensures -200.0 <= o < 200.0
  {
    r * 400.0 - 200.0
  }

  /** Every offset in [-200, 200) is reachable from some sample. */
  lemma NewOffsetOnto(o: real)
    requires -200.0 <= o < 200.0
    ensures exists r :: 0.0 <= r < 1.0 && NewOffset(r) == o
  {
    var r := (o + 200.0) / 400.0;
    assert NewOffset(r) == o;
  }

  /** The speed factor: the score mapped linearly from [0, 20] onto [1, 2],
      extended (not clamped) beyond a score of 20. */
  function PipesSpeed(score: nat): (k: real)
    ensures k >= 1.0
    ensures k * SPEED_SCORE_BREAKPOINT == SPEED_SCORE_BREAKPOINT + score as real
    ensures score == 0 ==> k == 1.0
    ensures score == 10 ==> k == 1.5
    ensures score == 20 ==> k == 2.0
    ensures score == 40 ==> k == 3.0
  {
    Interp.Lerp(score as real, 0.0, SPEED_SCORE_BREAKPOINT, 1.0, 2.0)
  }

  /** The duration of one sweep: 3000 ms divided by the speed factor, which is
      60000 / (20 + score) ms. */
  function SweepDuration(score: nat): (ms: real)
    ensures 0.0 < ms <= BASE_SWEEP_MS
    ensures ms * (20.0 + score as real) == 60000.0
  {
    BASE_SWEEP_MS / PipesSpeed(score)
  }

  /** A product with a positive factor is positive only if the other factor is. */
  lemma PositiveQuotient(x: real, k: real)
    requires k > 0.0 && x * k > 0.0
    ensures x > 0.0
  {
  }

  /** A higher score never gives a slower sweep; in fact always a faster one. */
  lemma SweepDurationDecreasing(a: nat, b: nat)
    requires a < b
    ensures SweepDuration(b) < SweepDuration(a)
  {
    InverseDecreasing(SweepDuration(a), SweepDuration(b), 20.0 + a as real, 20.0 + b as real, 60000.0);
  }

  /** If da * ka and db * kb are the same positive constant, the larger
      factor goes with the smaller partner. */
  lemma InverseDecreasing(da: real, db: real, ka: real, kb: real, c: real)
    requires 0.0 < ka < kb && c > 0.0
    requires da * ka == c && db * kb == c
    ensures db < da
  {
    PositiveQuotient(db, kb);
    assert db * ka < db * kb;
    assert (da - db) * ka == da * ka - db * ka;
    PositiveQuotient(da - db, ka);
  }

  /** Where a linear sweep has put the pipe tMs milliseconds after it started. */
  function SweepX(w: Sweep, tMs: real): real
    requires w.Sweeping? && w.durationMs > 0.0 && 0.0 <= tMs <= w.durationMs
  {
    w.fromX + (w.toX - w.fromX) * tMs / w.durationMs
  }

  /** Starting (or restarting) the sweep: the pipe jumps to the window's right
      edge and moves linearly to x = -150 over the score's sweep duration. */
  function StartSweep(cfg: Config, score: nat): (w: Sweep)
    ensures w.Sweeping? && w.durationMs == SweepDuration(score) && w.durationMs > 0.0
    ensures SweepX(w, 0.0) == cfg.width
    ensures SweepX(w, w.durationMs) == SWEEP_END_X
  {
    Sweeping(cfg.width, SWEEP_END_X, SweepDuration(score))
  }

  /** A sweep that ends left of where it starts moves the pipe strictly left
      as time passes. */
  lemma SweepMovesLeft(w: Sweep, t1: real, t2: real)
    requires w.Sweeping? && w.durationMs > 0.0 && w.fromX > w.toX
    requires 0.0 <= t1 < t2 <= w.durationMs
    ensures SweepX(w, t2) < SweepX(w, t1)
  {
    var d, span := w.durationMs, w.toX - w.fromX;
    assert span * t2 - span * t1 == span * (t2 - t1);
    assert span * (t2 - t1) < 0.0;
    assert span * t2 / d - span * t1 / d == (span * t2 - span * t1) / d;
  }

  /** The positions a sweep shows at the given times. */
  function SweepSamples(w: Sweep, ts: seq<real>): (xs: seq<real>)
    requires w.Sweeping? && w.durationMs > 0.0
    requires forall i | 0 <= i < |ts| :: 0.0 <= ts[i] <= w.durationMs
    ensures |xs| == |ts|
    ensures forall i | 0 <= i < |ts| :: xs[i] == SweepX(w, ts[i])
  {
    seq(|ts|, i requires 0 <= i < |ts| => SweepX(w, ts[i]))
  }

  /** Frames sampled at increasing times during one sweep see strictly
      decreasing pipe positions: the shape the pass lemmas below ask for. */
  lemma SweepSamplesDecreasing(w: Sweep, ts: seq<real>)
    requires w.Sweeping? && w.durationMs > 0.0 && w.fromX > w.toX
    requires forall i | 0 <= i < |ts| :: 0.0 <= ts[i] <= w.durationMs
    requires forall i, j | 0 <= i < j < |ts| :: ts[i] < ts[j]
    ensures Decreasing(SweepSamples(w, ts))
  {
    var xs := SweepSamples(w, ts);
    forall i, j | 0 <= i < j < |xs|
      ensures xs[j] < xs[i]
    {
      SweepMovesLeft(w, ts[i], ts[j]);
    }
  }

  /** The reaction to a new pipe position `cur`: first the recycle check (a
      fresh offset from sample r and a restarted sweep, whose speed is read
      from the score before this move), then the score check. Nothing else in
      the state changes. */
  function PipeMove(cfg: Config, s: State, cur: real, r: real): (s': State)
    requires 0.0 <= r < 1.0
    ensures s'.pipeX == cur
    ensures RecycleCrossing(s.pipeX, cur) ==>
      s'.pipeOffset == NewOffset(r) && s'.sweep == StartSweep(cfg, s.score)
    ensures !RecycleCrossing(s.pipeX, cur) ==>
      s'.pipeOffset == s.pipeOffset && s'.sweep == s.sweep
    ensures s'.score == if ScoreCrossing(s.pipeX, cur, FishX(cfg)) then s.score + 1 else s.score
    ensures s'.fishY == s.fishY && s'.fishYVelocity == s.fishYVelocity && s'.gameOver == s.gameOver
    ensures -200.0 <= s.pipeOffset < 200.0 ==> -200.0 <= s'.pipeOffset < 200.0
  {
    var prev := s.pipeX;
    var s1 := s.(pipeX := cur);
    var s2 := if RecycleCrossing(prev, cur)
              then s1.(pipeOffset := NewOffset(r), sweep := StartSweep(cfg, s.score))
              else s1;
    if ScoreCrossing(prev, cur, FishX(cfg)) then s2.(score := s.score + 1) else s2
  }

  /** A jump back to the right (the reset at the start of a sweep) never
      scores and never recycles. */
  lemma ResetJumpIsInert(prev: real, cur: real, middle: real)
    requires cur >= prev
    ensures !ScoreCrossing(prev, cur, middle)
    ensures !RecycleCrossing(prev, cur)
  {
  }

  /** For a fish right of the window's left edge the truthiness and inequality
      guards of the score rule reduce to one half-open crossing test. */
  lemma ScoreCrossingIsHalfOpen(prev: real, cur: real, middle: real)
    requires middle > 0.0
    ensures ScoreCrossing(prev, cur, middle) <==> cur <= middle < prev
  {
  }

  /** Strictly decreasing pipe positions, in order of observation. */
  predicate Decreasing(ps: seq<real>) {
    forall i, j | 0 <= i < j < |ps| :: ps[j] < ps[i]
  }

  /** How many times the score rule fires along successive positions ps. */
  function ScoreCount(ps: seq<real>, middle: real): nat
    decreases |ps|
  {
    if |ps| < 2 then 0
    else (if ScoreCrossing(ps[0], ps[1], middle) then 1 else 0) + ScoreCount(ps[1..], middle)
  }

  /** How many times the recycle rule fires along successive positions ps. */
  function RecycleCount(ps: seq<real>): nat
    decreases |ps|
  {
    if |ps| < 2 then 0
    else (if RecycleCrossing(ps[0], ps[1]) then 1 else 0) + RecycleCount(ps[1..])
  }

  /** A strictly leftward pass scores exactly once if it starts right of the
      fish and ends at or left of it, and otherwise never. */
  lemma {:induction false} DecreasingPassScoresOnce(ps: seq<real>, middle: real)
    requires middle > 0.0
    requires Decreasing(ps)
    ensures ScoreCount(ps, middle) ==
      (if |ps| > 0 && ps[0] > middle && ps[|ps| - 1] <= middle then 1 else 0)
    decreases |ps|
  {
    if |ps| >= 2 {
      var rest := ps[1..];
      assert Decreasing(rest);
      DecreasingPassScoresOnce(rest, middle);
      assert rest[|rest| - 1] == ps[|ps| - 1];
      if |rest| > 1 {
        assert ps[|ps| - 1] < ps[1];
      }
    }
  }

  /** A strictly leftward pass recycles at most once; once the pass is at or
      left of the threshold it never recycles; and when no sample is 0 or
      exactly the threshold, it recycles iff it starts right of the threshold
      and ends left of it. */
  lemma {:induction false} DecreasingPassRecyclesOnce(ps: seq<real>)
    requires Decreasing(ps)
    ensures RecycleCount(ps) <= 1
    ensures |ps| > 0 && ps[0] <= RECYCLE_X ==> RecycleCount(ps) == 0
    ensures (forall i | 0 <= i < |ps| :: ps[i] != RECYCLE_X && Truthy(ps[i])) ==>
      RecycleCount(ps) == (if |ps| > 0 && ps[0] > RECYCLE_X && ps[|ps| - 1] < RECYCLE_X then 1 else 0)
    decreases |ps|
  {
    if |ps| >= 2 {
      var rest := ps[1..];
      assert Decreasing(rest);
      DecreasingPassRecyclesOnce(rest);
      assert rest[|rest| - 1] == ps[|ps| - 1];
      if |rest| > 1 {
        assert ps[|ps| - 1] < ps[1];
      }
      if (forall i | 0 <= i < |ps| :: ps[i] != RECYCLE_X && Truthy(ps[i])) {
        assert forall i | 0 <= i < |rest| :: rest[i] == ps[i + 1];
      }
    }
  }

  /** Crossing below -100 and coming back up recycles once, not twice. */
  lemma RecycleExample()
    ensures RecycleCount([-95.0, -105.0, -90.0]) == 1
  {
  }

  /** Positions 150, 120, 90, 60 against a fish at 90 score once, on 120 to 90. */
  lemma ScoreExample()
    ensures ScoreCrossing(120.0, 90.0, 90.0) && !ScoreCrossing(90.0, 60.0, 90.0)
    ensures ScoreCount([150.0, 120.0, 90.0, 60.0], 90.0) == 1
  {
  }

  /** Both recycle bounds are strict, so a pass that samples exactly -100 is
      never recycled by the rule as written. */
  lemma RecycleSkipsExactThreshold()
    ensures Decreasing([-95.0, -100.0, -105.0])
    ensures RecycleCount([-95.0, -100.0, -105.0]) == 0
  {
  }
}

=== FILE: scenarios.dfy ===
/** Runs made only of frames: the fish falls along the closed-form parabola
    until the run ends, and an untouched game always ends, once. */
module Scenarios {
  import opened GameState
  import Physics
  import Collision
  import opened Engine

  /** n frame ticks of dtMs milliseconds each. */
  function Frames(n: nat, dtMs: real): (evs: seq<Event>)
    ensures |evs| == n && AllValid(evs) && NoTap(evs)
  {
    seq(n, i => Frame(Some(dtMs)))
  }

  /** Frames alone never change the score, and every callback reports it. */
  lemma {:induction false} FramesKeepScore(cfg: Config, s: State, n: nat, dtMs: real)
    ensures Run(cfg, s, Frames(n, dtMs)).final.score == s.score
    ensures forall c | c in Run(cfg, s, Frames(n, dtMs)).calls :: c == s.score
    decreases n
  {
    if n > 0 {
      var o := Step(cfg, s, Frame(Some(dtMs)));
      assert Frames(n, dtMs)[1..] == Frames(n - 1, dtMs);
      FramesKeepScore(cfg, o.state, n - 1, dtMs);
    }
  }

  /** While a run of frames has not ended, the fish has moved exactly as n
      physics steps move it, and it is still inside the field. */
  lemma {:induction false} FreeFall(cfg: Config, s: State, n: nat, dtMs: real)
    requires dtMs != 0.0
    ensures var t := Run(cfg, s, Frames(n, dtMs));
      !t.final.gameOver ==>
        && Physics.BodyOf(t.final) == Physics.IntegrateN(Physics.BodyOf(s), dtMs, n)
        && (n > 0 ==> !Collision.OutOfField(cfg, t.final.fishY))
    decreases n
  {
    if n > 0 {
      var evs := Frames(n, dtMs);
      var o := Step(cfg, s, evs[0]);
      assert evs[1..] == Frames(n - 1, dtMs);
      assert Run(cfg, s, evs).final == Run(cfg, o.state, Frames(n - 1, dtMs)).final;
      if o.state.gameOver {
        NoTapNoRestart(cfg, o.state, evs[1..]);
        GameOverLatches(cfg, o.state, evs[1..]);
      } else {
        assert Physics.BodyOf(o.state) == Physics.Integrate(Physics.BodyOf(s), dtMs);
        FreeFall(cfg, o.state, n - 1, dtMs);
      }
    }
  }

  /** With the pipe parked at the right edge of a window wider than 78 the
      fish is never in the pipes' column, so a run of frames can only end by
      the fish leaving the field. A fish that is falling stays at or below
      the top edge, so it leaves through the floor margin. */
  lemma {:induction false} ParkedPipeEndsAtFloor(cfg: Config, s: State, n: nat, dtMs: real)
    requires cfg.width > 78.0 && s.pipeX == cfg.width && dtMs > 0.0
    requires s.fishY >= 0.0 && s.fishYVelocity >= 0.0
    requires s.gameOver ==> s.fishY > cfg.height - Collision.FLOOR_MARGIN
    ensures var t := Run(cfg, s, Frames(n, dtMs));
      && t.final.pipeX == cfg.width && t.final.fishY >= 0.0 && t.final.fishYVelocity >= 0.0
      && (t.final.gameOver ==> t.final.fishY > cfg.height - Collision.FLOOR_MARGIN)
    decreases n
  {
    if n > 0 {
      var evs := Frames(n, dtMs);
      var o := Step(cfg, s, evs[0]);
      assert evs[1..] == Frames(n - 1, dtMs);
      assert Run(cfg, s, evs).final == Run(cfg, o.state, Frames(n - 1, dtMs)).final;
      assert s.fishYVelocity * dtMs >= 0.0;
      assert o.state.fishY >= s.fishY && o.state.fishYVelocity >= s.fishYVelocity;
      assert !Collision.InPipeColumn(cfg, o.state);
      Collision.CollidesIffGeometry(cfg, o.state);
      ParkedPipeEndsAtFloor(cfg, o.state, n - 1, dtMs);
    }
  }

  /** 100 frames of 1/60 s from height y at 100 px/s fall 4625/3 pixels. */
  lemma HundredFramesFall(y: real)
    ensures Physics.FallY(y, 100.0, 50.0 / 3.0, 100) == y + 4625.0 / 3.0
  {
    var t := (50.0 / 3.0) / Physics.MS_PER_SECOND;
    assert t == 1.0 / 60.0;
    assert 100.0 * 100.0 * t == 500.0 / 3.0;
    assert Physics.GRAVITY * t * t * (100.0 * (100.0 - 1.0) / 2.0) == 1375.0;
  }

  /** From the mount state on a window at most 2000 pixels tall, 100 frames at
      60 frames per second with no tap end the run, and the callback fires
      exactly once, with score 0. On a window wider than 78 the run ends
      because the fish has fallen past the floor margin. */
  lemma UntouchedGameEnds(cfg: Config)
    requires 0.0 < cfg.height <= 2000.0
    ensures var t := Run(cfg, Initial(cfg), Frames(100, 50.0 / 3.0));
      t.final.gameOver && t.calls == [0]
    ensures var t := Run(cfg, Initial(cfg), Frames(100, 50.0 / 3.0));
      cfg.width > 78.0 ==> t.final.fishY > cfg.height - Collision.FLOOR_MARGIN
  {
    var s := Initial(cfg);
    var dtMs := 50.0 / 3.0;
    var t := Run(cfg, s, Frames(100, dtMs));
    FreeFall(cfg, s, 100, dtMs);
    Physics.IntegrateNClosedForm(Physics.BodyOf(s), dtMs, 100);
    HundredFramesFall(cfg.height / 4.0);
    assert t.final.gameOver;
    NoTapNoRestart(cfg, s, Frames(100, dtMs));
    GameOverFiresOnce(cfg, s, Frames(100, dtMs));
    assert |t.calls| == 1;
    FramesKeepScore(cfg, s, 100, dtMs);
    assert t.calls[0] in t.calls;
    assert t.calls[0] == 0;
    assert t.calls == [t.calls[0]];
    if cfg.width > 78.0 {
      ParkedPipeEndsAtFloor(cfg, s, 100, dtMs);
    }
  }
}

=== FILE: sprite.dfy ===
/** How the fish is drawn: which of three sprites, and how far it is tilted,
    both chosen from its vertical velocity. */
module Sprite {
  import Interp

  datatype FishImage = UpFlap | MidFlap | DownFlap

  /** Rising faster than 100 px/s shows the up-flap, falling faster than
      100 px/s the down-flap, anything in between the middle frame. */
  function FishImageFor(v: real): (img: FishImage)
    ensures img == UpFlap <==> v < -100.0
    ensures img == DownFlap <==> v > 100.0
    ensures img == MidFlap <==> -100.0 <= v <= 100.0
  {
    if v < -100.0 then UpFlap
    else if v > 100.0 then DownFlap
    else MidFlap
  }

  /** The tilt in radians: velocity mapped from [-500, 500] onto [-0.5, 0.5]
      and clamped at both ends. */
  function FishRotation(v: real): (a: real)
    ensures -0.5 <= a <= 0.5
    ensures -500.0 <= v <= 500.0 ==> a == v / 1000.0
    ensures v <= -500.0 ==> a == -0.5
    ensures v >= 500.0 ==> a == 0.5
  {
    Interp.Clamp(Interp.Lerp(v, -500.0, 500.0, -0.5, 0.5), -0.5, 0.5)
  }

  /** A faster fall never tilts the fish less. */
  lemma FishRotationMonotone(v1: real, v2: real)
    requires v1 <= v2
    ensures FishRotation(v1) <= FishRotation(v2)
  {
    Interp.LerpMonotone(v1, v2, -500.0, 500.0, -0.5, 0.5);
    Interp.ClampMonotone(Interp.Lerp(v1, -500.0, 500.0, -0.5, 0.5),
                         Interp.Lerp(v2, -500.0, 500.0, -0.5, 0.5), -0.5, 0.5);
  }

  /** The sprite agrees with the tilt: the up-flap is shown exactly when the
      fish tilts up by more than 0.1 rad, the down-flap exactly when it tilts
      down by more than 0.1 rad. */
  lemma ImageAgreesWithTilt(v: real)
    ensures FishImageFor(v) == UpFlap <==> FishRotation(v) < -0.1
    ensures FishImageFor(v) == DownFlap <==> FishRotation(v) > 0.1
  {
  }
}
